=== FILE: README.md ===
# Resilience and fault tolerance: a Dafny model

This project models the decision logic that the product API writes down around
its outbound HTTP calls, and the inventory API's deterministic failure
simulator that those calls are exercised against:

- which outcomes each resilience layer handles: the retry policy, the circuit
  breaker, the inventory client's fallback, the payment client's fallback and
  the unwired adaptive retry (`Policies`);
- what the two fallbacks substitute (`Policies.Fallback`, `Policies.PaymentFallback`);
- the configuration defaults and the derived payment timeout (`Options`);
- the exponential backoff with jitter, in integer milliseconds, and the
  adaptive retry's delays (`Backoff`);
- the fixed nesting of the policies per named client (`Composition`);
- the failure simulator as an immutable counter state with a `Step` function
  (`Simulator`), and the same simulator with the controller's 32-bit counter
  (`SimulatorInt32`);
- how the inventory service turns the outcome into the string the caller gets
  (`InventoryService`).

An outcome (`Outcomes.Outcome`) is a response with a status and a body, or one
of the exceptions the policies tell apart: a transport error
(`HttpRequestException`), a rejected timeout, a broken circuit, or any other
exception. Status codes range over 100 to 599, the range section 15 of RFC 9110
gives for valid status codes. Over that range "5xx" and "status >= 500" mean the
same thing.

The random jitter is a parameter: an integer per-mille `j` with `0 <= j < 200`
stands for the factor `1 + j/1000` in [1, 1.2), the range `1 + NextDouble() * 0.2`
has in exact arithmetic. The message that
`EnsureSuccessStatusCode` puts into its exception is framework text and is a
parameter `statusMessage` of `InventoryService.GetInventory`. The framework
builds that message from the status code and the response's reason phrase,
which the server chooses; `statusMessage` depends on the status alone, so two
responses with the same status but different reason phrases get the same text
in the model.

What the code does, where its names or a quick reading suggest otherwise:

- `MaxAttempts` is passed to Polly as `retryCount`. It counts retries after the
  first attempt, so the default of 3 allows up to four attempts in all, not three.
- The breaker counts 5xx, 408 and transport errors only. A 429 is retried but
  never counts toward breaking.
- Neither the retry nor the breaker handles a timeout. Only the fallback does.
- The breaker wraps the retry, not the other way round. It therefore sees one
  outcome per logical call, the last outcome of the retry loop, and counts
  calls whose retries were used up (for example a 500 after four attempts),
  not individual attempts. An opening breaker cannot cut a retry loop short.
- The main retry ignores any `Retry-After` hint. The adaptive retry only logs
  the hint, and it is not attached to any client.
- The simulator's number of failing calls is fixed at 3, not configurable.
- A consequence of the nesting: the inventory client's fallback already replaces
  an open circuit with the degraded 503. So `GetInventoryAsync` never reaches its
  open-circuit branch through that client, and it answers every
  fallback-handled outcome with the error text for status 503
  (`InventoryService.InventoryThroughFallback`).

## Model

| member | source | states |
|---|---|---|
| Options.Load | ProductApi/Program.cs:19-23 | each option is the value under its own configuration key when that key is present, and otherwise its default (3, 2, 2, 20, 5) |
| Options.LoadEmptyGivesDefaults | ProductApi/Program.cs:19-23 | with no configuration present the options are MaxAttempts=3, BaseDelaySeconds=2, FailuresBeforeBreak=2, BreakSeconds=20, Timeout=5 |
| Options.LoadIgnoresUnrelatedKeys | ProductApi/Program.cs:14-23 | a key outside the five option paths changes no option |
| Options.PaymentTimeoutSeconds | ProductApi/Program.cs:128 | the payment timeout is at least 1 and at most max(1, timeout); it is timeout-2 when timeout >= 3 and 1 otherwise |
| Options.PaymentTimeoutShorter | ProductApi/Program.cs:128 | the payment timeout is strictly shorter than the main timeout exactly when the main timeout exceeds one second |
| Options.DefaultPaymentTimeout | ProductApi/Program.cs:23-128 | under the default configuration the payment timeout is 3 seconds |
| Policies.RetryHandlesExactly | ProductApi/Program.cs:36-38 | the retry predicate holds exactly for status 500-599, 408, 429 or a transport error, matching the reference class table |
| Policies.BreakerHandlesExactly | ProductApi/Program.cs:57-58 | the breaker predicate holds exactly for 5xx, 408 and transport errors, matching the reference class table |
| Policies.BreakerGap | ProductApi/Program.cs:36-58 | everything the breaker counts is retried; the one outcome retried but never counted toward breaking is a 429 response |
| Policies.FallbackHandlesExactly | ProductApi/Program.cs:81-85 | the fallback predicate holds exactly for an open circuit, a timeout, a transport error, a 5xx or a 429 |
| Policies.FallbackIgnoresLowStatuses | ProductApi/Program.cs:85 | the fallback leaves every response below 500 other than 429 alone, 408 in particular |
| Policies.RequestTimeoutEscapesFallback | ProductApi/Program.cs:36-85 | among retried outcomes, exactly a 408 response is not replaced by the fallback, so an exhausted 408 reaches the caller |
| Policies.TimeoutOnlyHandledByFallback | ProductApi/Program.cs:36-85 | a timeout is neither retried nor counted by the breaker, and the fallback handles it |
| Policies.Fallback | ProductApi/Program.cs:81-89 | a handled outcome becomes 503 "Degraded response from fallback.", any other passes unchanged; no open-circuit, timeout or transport failure ever reaches the caller, and the only 5xx or 429 that does is the degraded response |
| Policies.FallbackIdempotent | ProductApi/Program.cs:81-89 | a second fallback pass changes nothing |
| Policies.PaymentFallbackHandlesExactly | ProductApi/Program.cs:129-131 | the payment fallback predicate holds exactly for every exception, a 5xx or a 429 |
| Policies.PaymentFallback | ProductApi/Program.cs:129-134 | a handled outcome becomes 202 with the fixed payment text, any other passes unchanged; the caller always gets a response below 500 other than 429, never an exception |
| Policies.PaymentFallbackIdempotent | ProductApi/Program.cs:129-134 | a second payment fallback pass changes nothing |
| Policies.PaymentFallbackCoversFallback | ProductApi/Program.cs:81-131 | the payment fallback handles everything the inventory fallback handles, and the only extra outcomes are other exceptions |
| Policies.AdaptiveRetryIsFallbackOnResponses | ProductApi/Program.cs:85-105 | the adaptive retry handles exactly the responses the fallback handles, and no exception |
| Backoff.PreJitterDoubles | ProductApi/Program.cs:41-43 | the first retry waits the base delay before jitter, and each later retry waits exactly twice the previous one |
| Backoff.JitterBounds | ProductApi/Program.cs:43-45 | the jittered delay times 1000 equals the pre-jitter delay times (1000+j); the jittered delay is at least pre for a base of zero or more, and below 1.2*pre for a positive base |
| Backoff.RetrySchedule | ProductApi/Program.cs:39-46 | one delay per retry; retry i+1 waits base*1000*2^i*(1000+j_i)/1000 ms, the jittered delay for that retry |
| Backoff.AdaptiveSchedule | ProductApi/Program.cs:106-107 | the adaptive retry's three retries wait 2000, 4000 and 8000 ms |
| Backoff.AdaptiveMatchesDefaultBase | ProductApi/Program.cs:106-107 | the adaptive retry's 2^k-second delay equals the main retry's pre-jitter delay for the default base of 2 seconds |
| Composition.LayersOfWrapAll | ProductApi/Program.cs:101 | wrapping a sequence of policies keeps every layer and its order, outermost first |
| Composition.WrapAllLayersOf | ProductApi/Program.cs:101 | every policy stack is the wrap of its own layers |
| Composition.Innermost | ProductApi/Program.cs:101 | the layer directly around the handler is the last one in outside-in order |
| Composition.InventoryOrder | ProductApi/Program.cs:101 | the inventory client is [Fallback, CircuitBreaker, Retry, Timeout] outermost first: the fallback encloses the breaker, the breaker the retry, the retry the timeout, never the other way |
| Composition.PaymentOrder | ProductApi/Program.cs:140 | the payment client is [Fallback, Timeout], with no retry and no breaker |
| Composition.NotificationOrder | ProductApi/Program.cs:144 | the notification client has the retry policy alone |
| Decimal.IntRoundTrip | InventoryApi/Controllers/InventoryApiController.cs:20 | parsing the decimal rendering of an integer gives the integer back |
| Decimal.IntToStringInjective | InventoryApi/Controllers/InventoryApiController.cs:20 | distinct attempt numbers are rendered differently |
| Simulator.AttemptOfFailureText | InventoryApi/Controllers/InventoryApiController.cs:20 | the attempt number can be read back out of the failure body |
| Simulator.Step | InventoryApi/Controllers/InventoryApiController.cs:13-29 | one call raises the counter by exactly one; it answers 500 exactly when the new count is at most 3, with that count recoverable from the body, and otherwise 200 with the two-item payload |
| Simulator.AfterCount | InventoryApi/Controllers/InventoryApiController.cs:10-15 | n calls raise the counter by exactly n |
| Simulator.CountFromInitial | InventoryApi/Controllers/InventoryApiController.cs:10-15 | from a fresh counter, the counter after n calls is n |
| Simulator.RunAt | InventoryApi/Controllers/InventoryApiController.cs:13-29 | the answer to call i+1 is what one step answers in the state left by the first i calls |
| Simulator.CallsFromInitial | InventoryApi/Controllers/InventoryApiController.cs:17-29 | calls 1, 2, 3 answer 500 "Simulated failure. Attempt n" with their own number; every later call answers 200 with [{1, 100}, {2, 50}] |
| Simulator.SuccessIsPermanent | InventoryApi/Controllers/InventoryApiController.cs:15-18 | once a call succeeds, every later call succeeds |
| Simulator.FailuresOfRun | InventoryApi/Controllers/InventoryApiController.cs:18-21 | over n calls from any state the failures number min(n, failures left), so never more than 3 |
| SimulatorInt32.Increment | InventoryApi/Controllers/InventoryApiController.cs:15 | the unchecked `int` increment adds one below int.MaxValue and wraps to int.MinValue at it |
| SimulatorInt32.StepAsWritten | InventoryApi/Controllers/InventoryApiController.cs:13-21 | the as-written call wraps its counter and fails exactly when the wrapped count is at most 3 |
| SimulatorInt32.After32Count | InventoryApi/Controllers/InventoryApiController.cs:10-15 | before the wrap-around, the 32-bit counter after n calls is n |
| SimulatorInt32.AgreesBeforeWrap | InventoryApi/Controllers/InventoryApiController.cs:13-29 | below int.MaxValue the as-written call agrees with the unbounded model in count, status and body |
| SimulatorInt32.WrapAroundFailsAgain | InventoryApi/Controllers/InventoryApiController.cs:15-21 | call 2^31-1 succeeds but call 2^31 answers 500 "Simulated failure. Attempt -2147483648", where the unbounded model answers 200 |
| SimulatorInt32.FailuresBeforeWrap | InventoryApi/Controllers/InventoryApiController.cs:15-21 | before the wrap-around, the first n calls fail min(n, 3) times |
| SimulatorInt32.FourFailuresAfterWrap | InventoryApi/Controllers/InventoryApiController.cs:15-21 | the first 2^31 calls of the as-written controller fail four times |
| InventoryService.GetInventory | ProductApi/Service/InventoryService.cs:16-40 | a 2xx body is returned unchanged; a non-2xx response gives "Error: " plus the status exception's message; an open circuit gives the fixed open-circuit text; any other exception with message m gives "Error: " + m |
| InventoryService.NonSuccessIgnoresBody | ProductApi/Service/InventoryService.cs:23-28 | for a non-2xx status the answer does not depend on the body, so the body never reaches the caller |
| InventoryService.GetInventoryRandom | ProductApi/Service/InventoryService.cs:44-55 | the body of every response is returned whatever its status; only an exception with message m gives "Error: " + m |
| InventoryService.VariantsAgree | ProductApi/Service/InventoryService.cs:16-55 | both variants answer alike on 2xx responses and on exceptions other than an open circuit |
| InventoryService.InventoryThroughFallback | ProductApi/Service/InventoryService.cs:31-35 | behind the typed client's fallback no open circuit arrives; every handled outcome yields the 503 error text and never the open-circuit text |
| InventoryService.RandomThroughFallback | ProductApi/Service/InventoryService.cs:48-49 | behind the typed client's fallback, the random variant answers every handled outcome with "Degraded response from fallback." and passes the rest through |

## Left out

- Polly's retry loop, the circuit breaker's open / half-open / closed transitions and timeout enforcement live in a library that is not part of this model. The model states which outcomes they handle and how long the retry sleeps, not how they run.
- The random number generator, `Math.Pow` and `TimeSpan` floating-point arithmetic: jitter is an integer per-mille, so draws finer than one per-mille are not represented, and delays are integer milliseconds. The strict upper bound of `Backoff.JitterBounds` holds for this integer model only: in doubles the largest draw `1 - 2^-53` makes `1 + x * 0.2` round to exactly `1.2`, so the source's delay can equal 1.2 times the pre-jitter delay (2400 ms for 2000 ms).
- Console logging, `Activity` tags and the `onRetry`, `onBreak`, `onReset`, `onHalfOpen` and `onFallbackAsync` callbacks: observability side effects only.
- Dependency injection, base addresses, the minimal-API test endpoints, Swagger, HTTPS redirection, CORS and the whole start-up of the inventory API host: framework wiring.
- ProductApi/Controllers/InventoryController.cs: a pass-through to the service.
- The `/api/inventory/random` handler of the inventory API is not part of this model.
- Thread safety of the non-atomic `_callCount++`: calls are modelled one at a time.
- Configuration parsing: values are read as integers already; a present but unparsable value, which throws at start-up, and case-insensitive keys are not modelled.
- Polly's own argument checks (a negative retry count or a non-positive timeout throws when the policy is built) are not modelled.
- `Backoff.RetrySchedule`: takes the retry count as a natural number, because Polly rejects a negative count when the policy is built. It returns a delay for every retry, whereas `TimeSpan.FromSeconds` and `TimeSpan.FromMilliseconds` at ProductApi/Program.cs:43 and :45 throw whenever their `double` argument is not a finite `TimeSpan`: `OverflowException` beyond `TimeSpan.MaxValue` (about 9.22e11 seconds), which with the default base of 2 seconds happens at retry 40, and `ArgumentException` on NaN, which with a base of 0 happens from retry 1025 on, where `Math.Pow(2, 1024)` is infinite and `0 * Math.Pow(2, 1024)` is NaN. The thrown exception is handled by none of the policies, so it reaches `GetInventoryAsync` as "Error: " followed by its message; the model returns a delay there instead (0 ms for a base of 0). This covers only the delay computation; the sleep itself is done by the retry library, outside this model, whose maximum wait (`Task.Delay` accepts about 4.29e9 ms) is reached earlier, at retry 22 or 23 with the default base, depending on the jitter.
- `Backoff.JitterBounds`: states the lower bound pre only for a base of zero or more, and the upper bound below 1.2*pre only for a positive base (at base 0 both delays are 0); negative configured base delays are not modelled beyond the formula itself.
- Status codes outside 100 to 599, which `HttpResponseMessage` can carry, are not modelled.
- A failure while reading the response body (`ReadAsStringAsync`) is not modelled.
- The simulator's payload is modelled as the item list itself, not its JSON text.
- The failure text formats the call number with the current culture; the model writes an ASCII `-` for a negative number, while some cultures use U+2212 as the minus sign, so the exact body at the wrap-around (`SimulatorInt32.WrapAroundFailsAgain`) depends on the culture.

## Findings

| source | as written | input that shows it | evidently intended | confidence | as-written member | corrected member |
|---|---|---|---|---|---|---|
| InventoryApi/Controllers/InventoryApiController.cs:10-21 | `_callCount` is a 32-bit `int` incremented unchecked, and a call fails while it is at most 3 | call number 2^31: the counter wraps from 2147483647 to -2147483648, so that call and the next 2^31+3 calls answer 500 again | only the first three calls ever fail, and every call after a success succeeds | not executed; follows from C# unchecked `int` arithmetic and needs 2^31 calls to show | SimulatorInt32.WrapAroundFailsAgain | Simulator.FailuresOfRun |

=== FILE: backoff.dfy ===
/**
 The sleep durations of the retry policies, in integer milliseconds. The
 random jitter factor `1 + NextDouble() * 0.2`, which lies in [1, 1.2) in exact
 arithmetic, is represented by an integer per-mille `j` with `0 <= j < 200`,
 the factor being `(1000 + j) / 1000`.
 */
module Backoff {

  /** A jitter draw in per-mille. */
  type Jitter = j: int | 0 <= j < 200

  /** The unwired adaptive retry makes at most three retries. */
  const AdaptiveRetryCount: nat := 3

  function Pow2(n: nat): (r: nat)
    ensures r >= 1
  {
    if n == 0 then 1 else 2 * Pow2(n - 1)
  }

  /** The delay before retry number `attempt` (Polly numbers retries from 1)
      before jitter: `baseDelaySeconds * 2^(attempt-1)` seconds. */
  function PreJitterDelayMs(baseDelaySeconds: int, attempt: nat): int
    requires attempt >= 1
  {
    baseDelaySeconds * 1000 * Pow2(attempt - 1)
  }

  /** The pre-jitter delay scaled by the jitter factor. */
  function JitteredDelayMs(baseDelaySeconds: int, attempt: nat, j: Jitter): int
    requires attempt >= 1
  {
    PreJitterDelayMs(baseDelaySeconds, attempt) * (1000 + j) / 1000
  }

  /** The adaptive retry waits `2^attempt` seconds before retry `attempt`. */
  function AdaptiveDelayMs(attempt: nat): int {
    1000 * Pow2(attempt)
  }

  /** The first retry waits the base delay, and every later retry waits exactly
      twice as long as the one before it. */
  lemma PreJitterDoubles(baseDelaySeconds: int, attempt: nat)
    requires attempt >= 1
    ensures PreJitterDelayMs(baseDelaySeconds, 1) == baseDelaySeconds * 1000
    ensures PreJitterDelayMs(baseDelaySeconds, attempt + 1)
         == 2 * PreJitterDelayMs(baseDelaySeconds, attempt)
  {
    assert Pow2(attempt) == 2 * Pow2(attempt - 1);
  }

  lemma MulMonotone(a: int, b: int, c: int)
    requires a >= 0 && b <= c
    ensures a * b <= a * c
  {
  }

  lemma MulStrict(a: int, b: int, c: int)
    requires a > 0 && b < c
    ensures a * b < a * c
  {
  }

  /** Jitter loses nothing to rounding; the jittered delay is at least the
      pre-jitter delay for a base of zero or more, and below 1.2 times it for
      a positive base. */
  lemma JitterBounds(baseDelaySeconds: int, attempt: nat, j: Jitter)
    requires attempt >= 1
    ensures JitteredDelayMs(baseDelaySeconds, attempt, j) * 1000
         == PreJitterDelayMs(baseDelaySeconds, attempt) * (1000 + j)
    ensures baseDelaySeconds >= 0 ==>
      PreJitterDelayMs(baseDelaySeconds, attempt) <= JitteredDelayMs(baseDelaySeconds, attempt, j)
    ensures baseDelaySeconds > 0 ==>
      5 * JitteredDelayMs(baseDelaySeconds, attempt, j) < 6 * PreJitterDelayMs(baseDelaySeconds, attempt)
  {
    var p := baseDelaySeconds * Pow2(attempt - 1);
    var pre := PreJitterDelayMs(baseDelaySeconds, attempt);
    assert pre == p * 1000;
    assert pre * (1000 + j) == (p * (1000 + j)) * 1000;
    assert JitteredDelayMs(baseDelaySeconds, attempt, j) == p * (1000 + j);
    if baseDelaySeconds >= 0 {
      MulMonotone(p, 1000, 1000 + j);
    }
    if baseDelaySeconds > 0 {
      assert p > 0;
      MulStrict(p, 5 * (1000 + j), 6000);
    }
  }

  /** The adaptive retry's delays coincide with the main retry's pre-jitter
      delays under the default base delay of two seconds. */
  lemma AdaptiveMatchesDefaultBase(attempt: nat)
    requires attempt >= 1
    ensures AdaptiveDelayMs(attempt) == PreJitterDelayMs(2, attempt)
  {
    assert Pow2(attempt) == 2 * Pow2(attempt - 1);
  }

  /** The adaptive retry's three retries wait 2, 4 and 8 seconds. */
  lemma AdaptiveSchedule(attempt: nat)
    requires 1 <= attempt <= AdaptiveRetryCount
    ensures AdaptiveDelayMs(attempt) == [2000, 4000, 8000][attempt - 1]
  {
    assert Pow2(1) == 2 && Pow2(2) == 4 && Pow2(3) == 8;
  }

  /** The delays the main retry policy sleeps before each of its `retryCount`
      retries, given one jitter draw per retry. Retry `i + 1` waits
      `delays[i]`; the pre-jitter delay doubles from one retry to the next. */
  method RetrySchedule(baseDelaySeconds: int, retryCount: nat, jitter: seq<Jitter>)
    returns (delays: seq<int>)
    requires |jitter| == retryCount
    ensures |delays| == retryCount
    ensures forall i :: 0 <= i < retryCount ==>
      delays[i] == JitteredDelayMs(baseDelaySeconds, i + 1, jitter[i])
    ensures forall i :: 0 <= i < retryCount ==>
      delays[i] * 1000 == baseDelaySeconds * 1000 * Pow2(i) * (1000 + jitter[i] as int)
  {
    delays := [];
    var pre := baseDelaySeconds * 1000;
    var i := 0;
    while i < retryCount
      invariant 0 <= i <= retryCount
      invariant |delays| == i
      invariant pre == PreJitterDelayMs(baseDelaySeconds, i + 1)
      invariant forall k :: 0 <= k < i ==>
        delays[k] == JitteredDelayMs(baseDelaySeconds, k + 1, jitter[k])
    {
      delays := delays + [pre * (1000 + jitter[i]) / 1000];
      PreJitterDoubles(baseDelaySeconds, i + 1);
      pre := pre * 2;
      i := i + 1;
    }
    forall k | 0 <= k < retryCount
      ensures delays[k] * 1000 == baseDelaySeconds * 1000 * Pow2(k) * (1000 + jitter[k] as int)
    {
      JitterBounds(baseDelaySeconds, k + 1, jitter[k]);
    }
  }
}

=== FILE: composition.dfy ===
/**
 How the product API nests its policies around each HTTP client. `WrapAsync`
 takes its policies outermost first: the first one sees the call first and the
 result last, and the last one sits directly around the HTTP handler.
 */
module Composition {

  datatype Layer = Fallback | CircuitBreaker | Retry | Timeout

  /** A policy stack around the raw HTTP handler. */
  datatype Pipeline = Handler | Wrap(outer: Layer, inner: Pipeline)

  /** `Policy.WrapAsync(p1, p2, ..., pn)`: p1 wraps p2 wraps ... wraps pn. */
  function WrapAll(layers: seq<Layer>): Pipeline {
    if |layers| == 0 then Handler else Wrap(layers[0], WrapAll(layers[1..]))
  }

  /** The layers of a pipeline read from the outside in. */
  function LayersOf(p: Pipeline): seq<Layer> {
    match p
    case Handler => []
    case Wrap(l, inner) => [l] + LayersOf(inner)
  }

  /** Wrapping a sequence of layers and reading them back gives the same
      sequence: the composition keeps both the layers and their order. */
  lemma {:induction false} LayersOfWrapAll(layers: seq<Layer>)
    ensures LayersOf(WrapAll(layers)) == layers
    decreases |layers|
  {
    if |layers| > 0 {
      LayersOfWrapAll(layers[1..]);
      assert [layers[0]] + layers[1..] == layers;
    }
  }

  /** Every pipeline is the composition of its own layers. */
  lemma {:induction false} WrapAllLayersOf(p: Pipeline)
    ensures WrapAll(LayersOf(p)) == p
  {
    match p
    case Handler =>
    case Wrap(l, inner) =>
      WrapAllLayersOf(inner);
      assert ([l] + LayersOf(inner))[1..] == LayersOf(inner);
  }

  /** The layer directly around the HTTP handler, if there is one. */
  function Innermost(p: Pipeline): (r: Layer)
    requires p.Wrap?
    ensures var ls := LayersOf(p); |ls| > 0 && r == ls[|ls| - 1]
  {
    match p
    case Wrap(l, inner) => if inner.Handler? then l else Innermost(inner)
  }

  /** `outer` encloses `inner` in `p`: `inner` occurs strictly inside a layer `outer`. */
  predicate Encloses(p: Pipeline, outer: Layer, inner: Layer) {
    match p
    case Handler => false
    case Wrap(l, rest) => (l == outer && inner in LayersOf(rest)) || Encloses(rest, outer, inner)
  }

  /** The typed inventory client. */
  const InventoryLayers: seq<Layer> := [Fallback, CircuitBreaker, Retry, Timeout]
  /** The payment client, with its own fallback and shorter timeout. */
  const PaymentLayers: seq<Layer> := [Fallback, Timeout]
  /** The notification client, with the main retry policy alone. */
  const NotificationLayers: seq<Layer> := [Retry]

  const InventoryPipeline: Pipeline := WrapAll(InventoryLayers)
  const PaymentPipeline: Pipeline := WrapAll(PaymentLayers)
  const NotificationPipeline: Pipeline := WrapAll(NotificationLayers)

  /** The inventory client's nesting, outermost first: the fallback sees an
      open circuit, the breaker sits outside the retry and so records one
      outcome per call, the final one of its retry loop, and the timeout
      bounds each attempt rather than the whole retry loop. */
  lemma InventoryOrder()
    ensures LayersOf(InventoryPipeline) == [Fallback, CircuitBreaker, Retry, Timeout]
    ensures InventoryPipeline.outer == Fallback
    ensures Innermost(InventoryPipeline) == Timeout
    ensures Encloses(InventoryPipeline, Fallback, CircuitBreaker)
    ensures Encloses(InventoryPipeline, CircuitBreaker, Retry)
    ensures Encloses(InventoryPipeline, Retry, Timeout)
    ensures !Encloses(InventoryPipeline, Timeout, Retry)
    ensures !Encloses(InventoryPipeline, Retry, CircuitBreaker)
  {
    LayersOfWrapAll(InventoryLayers);
  }

  /** The payment client has a fallback around a timeout, and neither retry
      nor circuit breaker. */
  lemma PaymentOrder()
    ensures LayersOf(PaymentPipeline) == [Fallback, Timeout]
    ensures PaymentPipeline.outer == Fallback && Innermost(PaymentPipeline) == Timeout
    ensures Retry !in LayersOf(PaymentPipeline) && CircuitBreaker !in LayersOf(PaymentPipeline)
  {
    LayersOfWrapAll(PaymentLayers);
  }

  /** The notification client has the retry policy and nothing else. */
  lemma NotificationOrder()
    ensures LayersOf(NotificationPipeline) == [Retry]
  {
    LayersOfWrapAll(NotificationLayers);
  }
}

=== FILE: decimal.dfy ===
/**
 Decimal rendering of integers as C# string interpolation writes them (no
 leading zeros, a leading `-` for negatives), with a parser that inverts it.
 */
module Decimal {

  datatype Option<T> = None | Some(value: T)

  predicate IsDigit(c: char) {
    '0' <= c <= '9'
  }

  function DigitChar(d: nat): (c: char)
    requires d < 10
    ensures IsDigit(c) && DigitValue(c) == d
  {
    ['0', '1', '2', '3', '4', '5', '6', '7', '8', '9'][d]
  }

  function NatToString(n: nat): (s: string)
    ensures |s| >= 1
    ensures forall i :: 0 <= i < |s| ==> IsDigit(s[i])
    ensures |s| > 1 ==> s[0] != '0'
  {
    if n < 10 then [DigitChar(n)] else NatToString(n / 10) + [DigitChar(n % 10)]
  }

  function IntToString(i: int): string {
    if i < 0 then "-" + NatToString(-i) else NatToString(i)
  }

  function DigitValue(c: char): nat
    requires IsDigit(c)
  {
    (c as int) - ('0' as int)
  }

  /** The value of a string of digits. */
  function DigitsValue(s: string): nat
    requires forall i :: 0 <= i < |s| ==> IsDigit(s[i])
  {
    if |s| == 0 then 0
    else DigitsValue(s[..|s| - 1]) * 10 + DigitValue(s[|s| - 1])
  }

  /** Reads an unsigned decimal numeral; anything else is rejected. */
  function ParseNat(s: string): Option<nat> {
    if |s| > 0 && forall i :: 0 <= i < |s| ==> IsDigit(s[i]) then Some(DigitsValue(s)) else None
  }

  /** Reads what `IntToString` writes. */
  function ParseInt(s: string): Option<int> {
    if |s| > 0 && s[0] == '-' then
      match ParseNat(s[1..])
      case Some(n) => var v: int := n; Some(-v)
      case None => None
    else
      match ParseNat(s)
      case Some(n) => Some(n)
      case None => None
  }

  lemma {:induction false} DigitsValueOfNatToString(n: nat)
    ensures DigitsValue(NatToString(n)) == n
  {
    var s := NatToString(n);
    if n < 10 {
      assert s[..|s| - 1] == [];
    } else {
      DigitsValueOfNatToString(n / 10);
      assert s[..|s| - 1] == NatToString(n / 10);
    }
  }

  /** Parsing a rendered natural number gives the number back. */
  lemma NatRoundTrip(n: nat)
    ensures ParseNat(NatToString(n)) == Some(n)
  {
    DigitsValueOfNatToString(n);
  }

  /** Parsing a rendered integer gives the integer back. */
  lemma IntRoundTrip(i: int)
    ensures ParseInt(IntToString(i)) == Some(i)
  {
    var s := IntToString(i);
    if i < 0 {
      var t := NatToString(-i);
      assert s == "-" + t;
      assert s[0] == '-' && s[1..] == t;
      NatRoundTrip(-i);
    } else {
      assert s == NatToString(i);
      assert IsDigit(s[0]);
      NatRoundTrip(i);
    }
  }

  /** Distinct integers are rendered differently. */
  lemma IntToStringInjective(a: int, b: int)
    requires IntToString(a) == IntToString(b)
    ensures a == b
  {
    IntRoundTrip(a);
    IntRoundTrip(b);
  }
}

=== FILE: inventory_service.dfy ===
/**
 The product API's inventory service: how the outcome that the typed HTTP
 client hands back is turned into the string returned to the caller.

 `EnsureSuccessStatusCode` throws an `HttpRequestException` whose message is
 written by the framework; that message is the parameter `statusMessage`.
 */
module InventoryService {
  import opened Outcomes
  import Policies

  // Written in two pieces so that the verifier sees the leading characters.
  const OpenCircuitText: string := "Service unavailable " + "due to open circuit. Please try again later."
  const ErrorPrefix: string := "Error: "

  /** `GetInventoryAsync`: a 2xx body is returned as it is; an open circuit
      gives the fixed open-circuit text; every other failure, including a
      non-2xx status, gives `"Error: "` followed by the exception message. */
  function GetInventory(o: Outcome, statusMessage: HttpStatus -> string): (r: string)
    ensures o.IsSuccess() ==> r == o.body
    ensures o.Response? && !o.IsSuccess() ==> r == ErrorPrefix + statusMessage(o.status)
    ensures o.BrokenCircuit? ==> r == OpenCircuitText
    ensures o.IsException() && !o.BrokenCircuit? ==> r == ErrorPrefix + o.message
    ensures !o.IsSuccess() && !o.BrokenCircuit? ==> |r| >= |ErrorPrefix| && r[..|ErrorPrefix|] == ErrorPrefix
  {
    match o
    case Response(status, body) =>
      if 200 <= status <= 299 then body else ErrorPrefix + statusMessage(status)
    case BrokenCircuit(_) => OpenCircuitText
    case TransportError(m) => ErrorPrefix + m
    case TimeoutRejected(m) => ErrorPrefix + m
    case OtherException(m) => ErrorPrefix + m
  }

  /** `GetInventoryRandomAsync`: the body of every response, whatever its
      status; only an exception gives `"Error: "` followed by its message. */
  function GetInventoryRandom(o: Outcome): (r: string)
    ensures o.Response? ==> r == o.body
    ensures o.IsException() ==> r == ErrorPrefix + o.message
  {
    match o
    case Response(_, body) => body
    case TransportError(m) => ErrorPrefix + m
    case TimeoutRejected(m) => ErrorPrefix + m
    case BrokenCircuit(m) => ErrorPrefix + m
    case OtherException(m) => ErrorPrefix + m
  }

  /** For a non-2xx status the answer does not depend on the body: the body of
      a failed response never reaches the caller. */
  lemma NonSuccessIgnoresBody(s: HttpStatus, b1: string, b2: string, statusMessage: HttpStatus -> string)
    requires !(200 <= s <= 299)
    ensures GetInventory(Response(s, b1), statusMessage) == GetInventory(Response(s, b2), statusMessage)
  {
  }

  /** The two variants agree on 2xx responses and on exceptions other than an
      open circuit; they differ in what a failed response yields. */
  lemma VariantsAgree(o: Outcome, statusMessage: HttpStatus -> string)
    requires o.IsSuccess() || (o.IsException() && !o.BrokenCircuit?)
    ensures GetInventory(o, statusMessage) == GetInventoryRandom(o)
  {
  }

  /** Through the typed client's fallback, every handled outcome (an open
      circuit included) arrives as the degraded 503, so `GetInventoryAsync`
      answers with the 503 error text and never takes its open-circuit branch. */
  lemma InventoryThroughFallback(inner: Outcome, statusMessage: HttpStatus -> string)
    ensures !Policies.Fallback(inner).BrokenCircuit?
    ensures Policies.FallbackHandles(inner) ==>
      GetInventory(Policies.Fallback(inner), statusMessage) == ErrorPrefix + statusMessage(503)
    ensures Policies.FallbackHandles(inner) ==>
      GetInventory(Policies.Fallback(inner), statusMessage) != OpenCircuitText
  {
    if Policies.FallbackHandles(inner) {
      var r := GetInventory(Policies.Fallback(inner), statusMessage);
      assert r == ErrorPrefix + statusMessage(503);
      assert r[0] == 'E' && OpenCircuitText[0] == 'S';
    }
  }

  /** Through the typed client's fallback, the random variant answers every
      handled outcome with the degraded body. */
  lemma RandomThroughFallback(inner: Outcome)
    ensures Policies.FallbackHandles(inner) ==>
      GetInventoryRandom(Policies.Fallback(inner)) == "Degraded response from fallback."
    ensures !Policies.FallbackHandles(inner) ==>
      GetInventoryRandom(Policies.Fallback(inner)) == GetInventoryRandom(inner)
  {
  }
}

=== FILE: options.dfy ===
/**
 The resilience options the product API reads once at start-up from the
 `Resilience` configuration section, and the payment client's timeout derived
 from them.
 */
module Options {

  /** The configuration as flattened `Section:Sub:Key` paths with values
      already read as integers. */
  type Configuration = map<string, int>

  const MaxAttemptsKey: string := "Resilience:Retry:MaxAttempts"
  const BaseDelaySecondsKey: string := "Resilience:Retry:BaseDelaySeconds"
  const FailuresBeforeBreakKey: string := "Resilience:CircuitBreaker:FailuresBeforeBreak"
  const BreakSecondsKey: string := "Resilience:CircuitBreaker:BreakSeconds"
  const TimeoutSecondsKey: string := "Resilience:Timeout:Seconds"

  const DefaultMaxAttempts: int := 3
  const DefaultBaseDelaySeconds: int := 2
  const DefaultFailuresBeforeBreak: int := 2
  const DefaultBreakSeconds: int := 20
  const DefaultTimeoutSeconds: int := 5

  datatype ResilienceOptions = ResilienceOptions(
    retryMaxAttempts: int,
    retryBaseDelaySeconds: int,
    breakerFailures: int,
    breakerBreakSeconds: int,
    timeoutSeconds: int)

  const Defaults: ResilienceOptions := ResilienceOptions(
    DefaultMaxAttempts, DefaultBaseDelaySeconds, DefaultFailuresBeforeBreak,
    DefaultBreakSeconds, DefaultTimeoutSeconds)

  /** `GetValue<int>(key, default)`: the configured value, or the default
      when the key is absent. */
  function GetValue(config: Configuration, key: string, default: int): int {
    if key in config then config[key] else default
  }

  /** Reads the five options. Each option is the value under its own key when
      that key is present and its default otherwise; no other key matters. */
  function Load(config: Configuration): (opts: ResilienceOptions)
    ensures MaxAttemptsKey in config ==> opts.retryMaxAttempts == config[MaxAttemptsKey]
    ensures MaxAttemptsKey !in config ==> opts.retryMaxAttempts == 3
    ensures BaseDelaySecondsKey in config ==> opts.retryBaseDelaySeconds == config[BaseDelaySecondsKey]
    ensures BaseDelaySecondsKey !in config ==> opts.retryBaseDelaySeconds == 2
    ensures FailuresBeforeBreakKey in config ==> opts.breakerFailures == config[FailuresBeforeBreakKey]
    ensures FailuresBeforeBreakKey !in config ==> opts.breakerFailures == 2
    ensures BreakSecondsKey in config ==> opts.breakerBreakSeconds == config[BreakSecondsKey]
    ensures BreakSecondsKey !in config ==> opts.breakerBreakSeconds == 20
    ensures TimeoutSecondsKey in config ==> opts.timeoutSeconds == config[TimeoutSecondsKey]
    ensures TimeoutSecondsKey !in config ==> opts.timeoutSeconds == 5
  {
    ResilienceOptions(
      GetValue(config, MaxAttemptsKey, DefaultMaxAttempts),
      GetValue(config, BaseDelaySecondsKey, DefaultBaseDelaySeconds),
      GetValue(config, FailuresBeforeBreakKey, DefaultFailuresBeforeBreak),
      GetValue(config, BreakSecondsKey, DefaultBreakSeconds),
      GetValue(config, TimeoutSecondsKey, DefaultTimeoutSeconds))
  }

  /** With no configuration present every option takes its default. */
  lemma LoadEmptyGivesDefaults()
    ensures Load(map[]) == ResilienceOptions(3, 2, 2, 20, 5)
    ensures Load(map[]) == Defaults
  {
  }

  /** Keys outside the five option paths do not affect the options. */
  lemma LoadIgnoresUnrelatedKeys(config: Configuration, key: string, value: int)
    requires key !in {MaxAttemptsKey, BaseDelaySecondsKey, FailuresBeforeBreakKey,
                      BreakSecondsKey, TimeoutSecondsKey}
    ensures Load(config[key := value]) == Load(config)
  {
  }

  function Max(a: int, b: int): int {
    if a < b then b else a
  }

  /** The payment client's timeout, `Math.Max(1, timeoutSeconds - 2)`: two
      seconds shorter than the main timeout, but never below one second. */
  function PaymentTimeoutSeconds(timeoutSeconds: int): (r: int)
    ensures r >= 1
    ensures r <= Max(1, timeoutSeconds)
    ensures timeoutSeconds >= 3 ==> r == timeoutSeconds - 2
    ensures timeoutSeconds <= 3 ==> r == 1
  {
    Max(1, timeoutSeconds - 2)
  }

  /** The payment timeout is strictly shorter than the main one exactly when
      the main timeout exceeds one second. */
  lemma PaymentTimeoutShorter(timeoutSeconds: int)
    ensures PaymentTimeoutSeconds(timeoutSeconds) < timeoutSeconds <==> timeoutSeconds > 1
  {
  }

  /** With the default main timeout of five seconds the payment timeout is three. */
  lemma DefaultPaymentTimeout()
    ensures PaymentTimeoutSeconds(Load(map[]).timeoutSeconds) == 3
  {
  }
}

=== FILE: outcomes.dfy ===
/**
 The outcome of one outbound HTTP call as the resilience policies of the
 product API see it: either a response carrying a status code and a body, or
 one of the exceptions the policies distinguish.
 */
module Outcomes {

  /** An HTTP status code. Section 15 of RFC 9110 places every valid status
      code in the range 100 to 599, inclusive. */
  type HttpStatus = s: int | 100 <= s <= 599 witness 200

  const Accepted: HttpStatus := 202
  const RequestTimeout: HttpStatus := 408
  const TooManyRequests: HttpStatus := 429
  const ServiceUnavailable: HttpStatus := 503

  datatype Outcome =
    | Response(status: HttpStatus, body: string)
      /** `HttpRequestException`: the request could not be sent or completed. */
    | TransportError(message: string)
      /** `TimeoutRejectedException`: the timeout policy abandoned the attempt. */
    | TimeoutRejected(message: string)
      /** `BrokenCircuitException`: the breaker is open and refused the call. */
    | BrokenCircuit(message: string)
      /** Any other exception, for instance a cancelled operation. */
    | OtherException(message: string)
  {
    /** True for every outcome that is an exception rather than a response. */
    predicate IsException() {
      !Response?
    }

    /** `HttpResponseMessage.IsSuccessStatusCode`: a response whose status is 2xx. */
    predicate IsSuccess() {
      Response? && 200 <= status <= 299
    }
  }
}

=== FILE: policies.dfy ===
/**
 Which outcomes each resilience layer of the product API handles, and what the
 two fallback layers substitute for a handled outcome. A layer that does not
 handle an outcome lets it pass outward unchanged.
 */
module Policies {
  import opened Outcomes

  /** Polly's `HandleTransientHttpError`: an `HttpRequestException`, any 5xx
      status, or 408 Request Timeout. */
  predicate IsTransientHttpError(o: Outcome) {
    || o.TransportError?
    || (o.Response? && (o.status >= 500 || o.status == RequestTimeout))
  }

  /** The main retry policy: transient HTTP errors, or 429 Too Many Requests. */
  predicate RetryHandles(o: Outcome) {
    IsTransientHttpError(o) || (o.Response? && o.status == TooManyRequests)
  }

  /** The circuit breaker counts only transient HTTP errors. */
  predicate BreakerHandles(o: Outcome) {
    IsTransientHttpError(o)
  }

  /** The outermost fallback of the inventory client. */
  predicate FallbackHandles(o: Outcome) {
    || o.BrokenCircuit?
    || o.TimeoutRejected?
    || o.TransportError?
    || (o.Response? && (o.status >= 500 || o.status == TooManyRequests))
  }

  /** The payment client's fallback: every exception, and 5xx or 429 responses. */
  predicate PaymentFallbackHandles(o: Outcome) {
    o.IsException() || (o.Response? && (o.status >= 500 || o.status == TooManyRequests))
  }

  /** The unwired adaptive retry handles results only, never exceptions. */
  predicate AdaptiveRetryHandles(o: Outcome) {
    o.Response? && (o.status == TooManyRequests || o.status >= 500)
  }

  const DegradedBody: string := "Degraded response from fallback."
  const DegradedResponse: Outcome := Response(ServiceUnavailable, DegradedBody)

  const PaymentFallbackBody: string := "Payment accepted for async processing (fallback)."
  const PaymentFallbackResponse: Outcome := Response(Accepted, PaymentFallbackBody)

  /** The inventory client's fallback layer applied to what its inner layers
      produced. No open-circuit, timeout or transport failure reaches the
      caller, and the only 5xx or 429 response that does is the degraded one. */
  function Fallback(o: Outcome): (r: Outcome)
    ensures FallbackHandles(o) ==> r == DegradedResponse
    ensures !FallbackHandles(o) ==> r == o
    ensures !r.BrokenCircuit? && !r.TimeoutRejected? && !r.TransportError?
    ensures FallbackHandles(r) ==> r == DegradedResponse
  {
    if FallbackHandles(o) then DegradedResponse else o
  }

  /** The payment client's fallback layer: the caller always receives a
      response, never an exception, and never a 5xx or 429 status. */
  function PaymentFallback(o: Outcome): (r: Outcome)
    ensures PaymentFallbackHandles(o) ==> r == PaymentFallbackResponse
    ensures !PaymentFallbackHandles(o) ==> r == o
    ensures r.Response? && r.status < 500 && r.status != TooManyRequests
  {
    if PaymentFallbackHandles(o) then PaymentFallbackResponse else o
  }

  /** Applying the inventory fallback a second time changes nothing. */
  lemma FallbackIdempotent(o: Outcome)
    ensures Fallback(Fallback(o)) == Fallback(o)
  {
  }

  /** Applying the payment fallback a second time changes nothing. */
  lemma PaymentFallbackIdempotent(o: Outcome)
    ensures PaymentFallback(PaymentFallback(o)) == PaymentFallback(o)
  {
  }

  // ---------------------------------------------------------------------------
  // An independent reference: each outcome falls into one class, and each layer
  // is described by the set of classes it handles.
  // ---------------------------------------------------------------------------

  datatype OutcomeClass =
    | Informational | Successful | Redirection
    | ClientError       // a 4xx other than 408 and 429
    | RequestTimeoutStatus | TooManyRequestsStatus
    | ServerError
    | Transport | Timeout | OpenCircuit | OtherError

  function ClassOf(o: Outcome): OutcomeClass {
    match o
    case Response(s, _) =>
      if s < 200 then Informational
      else if s < 300 then Successful
      else if s < 400 then Redirection
      else if s == 408 then RequestTimeoutStatus
      else if s == 429 then TooManyRequestsStatus
      else if s < 500 then ClientError
      else ServerError
    case TransportError(_) => Transport
    case TimeoutRejected(_) => Timeout
    case BrokenCircuit(_) => OpenCircuit
    case OtherException(_) => OtherError
  }

  const RetryClasses: set<OutcomeClass> :=
    {RequestTimeoutStatus, TooManyRequestsStatus, ServerError, Transport}
  const BreakerClasses: set<OutcomeClass> :=
    {RequestTimeoutStatus, ServerError, Transport}
  const FallbackClasses: set<OutcomeClass> :=
    {TooManyRequestsStatus, ServerError, Transport, Timeout, OpenCircuit}
  const PaymentFallbackClasses: set<OutcomeClass> :=
    {TooManyRequestsStatus, ServerError, Transport, Timeout, OpenCircuit, OtherError}

  /** The retry predicate holds exactly for 5xx, 408, 429 and transport errors. */
  lemma RetryHandlesExactly(o: Outcome)
    ensures RetryHandles(o) <==> ClassOf(o) in RetryClasses
    ensures RetryHandles(o) <==>
      || o.TransportError?
      || (o.Response? && (500 <= o.status <= 599 || o.status == 408 || o.status == 429))
  {
  }

  /** The breaker predicate holds exactly for 5xx, 408 and transport errors. */
  lemma BreakerHandlesExactly(o: Outcome)
    ensures BreakerHandles(o) <==> ClassOf(o) in BreakerClasses
  {
  }

  /** The fallback predicate holds exactly for an open circuit, a timeout, a
      transport error, a 5xx or a 429. */
  lemma FallbackHandlesExactly(o: Outcome)
    ensures FallbackHandles(o) <==> ClassOf(o) in FallbackClasses
  {
  }

  /** The payment fallback predicate holds exactly for every exception, a 5xx or a 429. */
  lemma PaymentFallbackHandlesExactly(o: Outcome)
    ensures PaymentFallbackHandles(o) <==> ClassOf(o) in PaymentFallbackClasses
  {
  }

  /** Everything the breaker counts is also retried; the one outcome that is
      retried but never counts toward breaking is a 429 response. */
  lemma BreakerGap(o: Outcome)
    ensures BreakerHandles(o) ==> RetryHandles(o)
    ensures RetryHandles(o) && !BreakerHandles(o) <==> o.Response? && o.status == TooManyRequests
  {
  }

  /** Among outcomes the retry handles, a 408 response is the only one the
      fallback does not replace, so an exhausted 408 reaches the caller. */
  lemma RequestTimeoutEscapesFallback(o: Outcome)
    ensures RetryHandles(o) && !FallbackHandles(o) <==> o.Response? && o.status == RequestTimeout
  {
  }

  /** A response with a status below 500 other than 429 is never replaced by
      the fallback; in particular 408 is not. */
  lemma FallbackIgnoresLowStatuses(s: HttpStatus, body: string)
    ensures s < 500 && s != TooManyRequests ==> !FallbackHandles(Response(s, body))
    ensures !FallbackHandles(Response(RequestTimeout, body))
  {
  }

  /** A timeout is neither retried nor counted by the breaker; only the
      fallback handles it. */
  lemma TimeoutOnlyHandledByFallback(m: string)
    ensures !RetryHandles(TimeoutRejected(m)) && !BreakerHandles(TimeoutRejected(m))
    ensures FallbackHandles(TimeoutRejected(m))
  {
  }

  /** The payment fallback handles everything the inventory fallback handles;
      the only extra outcomes are exceptions of other kinds. */
  lemma PaymentFallbackCoversFallback(o: Outcome)
    ensures FallbackHandles(o) ==> PaymentFallbackHandles(o)
    ensures PaymentFallbackHandles(o) && !FallbackHandles(o) <==> o.OtherException?
  {
  }

  /** The adaptive retry handles the same responses as the fallback, but no
      exception. */
  lemma AdaptiveRetryIsFallbackOnResponses(o: Outcome)
    ensures AdaptiveRetryHandles(o) <==> o.Response? && FallbackHandles(o)
  {
  }
}

=== FILE: simulator.dfy ===
/**
 The inventory API's deterministic failure simulator: a call counter shared by
 every request, where calls one to three answer 500 with the call number in the
 body and every later call answers 200 with a fixed two-item payload. Calls are
 taken one at a time. The counter here is unbounded; the 32-bit counter of the
 controller as written is modelled in `SimulatorInt32`.
 */
module Simulator {
  import opened Decimal
  import Outcomes

  datatype Item = Item(productId: int, quantity: int)

  /** The success payload. */
  const Payload: seq<Item> := [Item(1, 100), Item(2, 50)]

  /** The number of leading calls that fail. */
  const FailingCalls: nat := 3

  const FailureStatus: Outcomes.HttpStatus := 500
  const SuccessStatus: Outcomes.HttpStatus := 200

  const FailurePrefix: string := "Simulated failure. Attempt "

  /** A response body: plain text, or the serialised item list. */
  datatype Body = Text(text: string) | Items(items: seq<Item>)

  /** What one call answers. */
  datatype Reply = Reply(status: Outcomes.HttpStatus, body: Body)

  /** The controller's static `_callCount`: how many calls have been made. */
  datatype State = State(callCount: nat)

  const Initial: State := State(0)

  /** The state after a call together with the status and body it answered. */
  datatype StepResult = StepResult(next: State, status: Outcomes.HttpStatus, body: Body) {
    function Answer(): Reply {
      Reply(status, body)
    }
  }

  /** The failure text for call number `n`. */
  function FailureText(n: int): string {
    FailurePrefix + IntToString(n)
  }

  /** Recovers the call number from a failure text. */
  function AttemptOf(text: string): Option<int> {
    if |FailurePrefix| <= |text| && text[..|FailurePrefix|] == FailurePrefix
    then ParseInt(text[|FailurePrefix|..])
    else None
  }

  /** The call number can be read back out of every failure text. */
  lemma AttemptOfFailureText(n: int)
    ensures AttemptOf(FailureText(n)) == Some(n)
  {
    var t := FailureText(n);
    assert t[..|FailurePrefix|] == FailurePrefix;
    assert t[|FailurePrefix|..] == IntToString(n);
    IntRoundTrip(n);
  }

  /** One call of `Get()`: the counter goes up by exactly one; the call fails
      with its own call number in the body exactly when it is among the first
      three, and otherwise answers 200 with the payload. */
  function Step(s: State): (r: StepResult)
    ensures r.next.callCount == s.callCount + 1
    ensures r.status == FailureStatus <==> r.next.callCount <= FailingCalls
    ensures r.status == FailureStatus ==>
      r.body.Text? && AttemptOf(r.body.text) == Some(r.next.callCount as int)
    ensures r.status != FailureStatus ==> r.status == SuccessStatus && r.body == Items(Payload)
  {
    var count := s.callCount + 1;
    if count <= FailingCalls then
      AttemptOfFailureText(count);
      StepResult(State(count), FailureStatus, Text(FailureText(count)))
    else
      StepResult(State(count), SuccessStatus, Items(Payload))
  }

  /** The state after `n` further calls. */
  function After(s: State, n: nat): State
    decreases n
  {
    if n == 0 then s else After(Step(s).next, n - 1)
  }

  /** The answers to `n` consecutive calls starting from `s`. */
  function Run(s: State, n: nat): seq<Reply>
    decreases n
  {
    if n == 0 then [] else [Step(s).Answer()] + Run(Step(s).next, n - 1)
  }

  /** The number of failed answers. */
  function Failures(replies: seq<Reply>): nat {
    if |replies| == 0 then 0
    else (if replies[0].status == FailureStatus then 1 else 0) + Failures(replies[1..])
  }

  function Min(a: nat, b: nat): nat {
    if a < b then a else b
  }

  /** How many failing calls remain once `count` calls have been made. */
  function FailuresLeft(count: nat): nat {
    if count >= FailingCalls then 0 else FailingCalls - count
  }

  /** After `n` calls the counter has grown by exactly `n`. */
  lemma {:induction false} AfterCount(s: State, n: nat)
    ensures After(s, n).callCount == s.callCount + n
    decreases n
  {
    if n > 0 {
      AfterCount(Step(s).next, n - 1);
    }
  }

  /** Starting from a fresh counter, the counter after `n` calls is `n`. */
  lemma CountFromInitial(n: nat)
    ensures After(Initial, n).callCount == n
  {
    AfterCount(Initial, n);
  }

  lemma {:induction false} RunLength(s: State, n: nat)
    ensures |Run(s, n)| == n
    decreases n
  {
    if n > 0 {
      RunLength(Step(s).next, n - 1);
    }
  }

  /** The answer to the `(i+1)`-th of the calls is what `Step` answers in the
      state left by the first `i`. */
  lemma {:induction false} RunAt(s: State, n: nat, i: nat)
    requires i < n
    ensures |Run(s, n)| == n
    ensures Run(s, n)[i] == Step(After(s, i)).Answer()
    decreases i
  {
    RunLength(s, n);
    if i > 0 {
      RunAt(Step(s).next, n - 1, i - 1);
    }
  }

  /** Starting from a fresh counter, calls 1, 2 and 3 answer 500 with their
      own call number, and every later call answers 200 with the payload. */
  lemma CallsFromInitial(n: nat, i: nat)
    requires i < n
    ensures |Run(Initial, n)| == n
    ensures i < 3 ==> Run(Initial, n)[i] == Reply(500, Text(FailureText(i + 1)))
    ensures i >= 3 ==> Run(Initial, n)[i] == Reply(200, Items([Item(1, 100), Item(2, 50)]))
  {
    RunAt(Initial, n, i);
    CountFromInitial(i);
  }

  /** Once a call succeeds, every later call succeeds too. */
  lemma SuccessIsPermanent(s: State, n: nat, i: nat, j: nat)
    requires i <= j < n
    ensures |Run(s, n)| == n
    ensures Run(s, n)[i].status == SuccessStatus ==> Run(s, n)[j].status == SuccessStatus
  {
    RunAt(s, n, i);
    RunAt(s, n, j);
    AfterCount(s, i);
    AfterCount(s, j);
  }

  /** Over `n` calls from any state the number of failures is the smaller of
      `n` and the failures left, never more than three in all. */
  lemma {:induction false} FailuresOfRun(s: State, n: nat)
    ensures Failures(Run(s, n)) == Min(n, FailuresLeft(s.callCount))
    ensures Failures(Run(s, n)) <= 3
    decreases n
  {
    if n > 0 {
      var r := Run(s, n);
      FailuresOfRun(Step(s).next, n - 1);
      assert r[1..] == Run(Step(s).next, n - 1);
    }
  }
}

=== FILE: simulator_int32.dfy ===
/**
 The failure simulator exactly as the controller writes it: `_callCount` is a
 C# `int`, and `_callCount++` in an unchecked context wraps from
 `int.MaxValue` to `int.MinValue`.
 */
module SimulatorInt32 {
  import Simulator
  import Outcomes

  const IntMin: int := -0x8000_0000
  const IntMax: int := 0x7fff_ffff

  type Int32 = x: int | IntMin <= x <= IntMax

  /** Unchecked 32-bit increment. */
  function Increment(x: Int32): (r: Int32)
    ensures x < IntMax ==> r == x + 1
    ensures x == IntMax ==> r == IntMin
  {
    (x - IntMin + 1) % 0x1_0000_0000 + IntMin
  }

  datatype State32 = State32(callCount: Int32)

  const Initial32: State32 := State32(0)

  datatype StepResult32 = StepResult32(next: State32, status: Outcomes.HttpStatus, body: Simulator.Body)

  /** `Get()` as written: increment, then fail while the counter is at most 3. */
  function StepAsWritten(s: State32): (r: StepResult32)
    ensures r.next.callCount == Increment(s.callCount)
    ensures r.status == 500 <==> r.next.callCount <= 3
  {
    var count := Increment(s.callCount);
    if count <= Simulator.FailingCalls then
      StepResult32(State32(count), Simulator.FailureStatus,
                   Simulator.Text(Simulator.FailureText(count)))
    else
      StepResult32(State32(count), Simulator.SuccessStatus, Simulator.Items(Simulator.Payload))
  }

  function After32(s: State32, n: nat): State32
    decreases n
  {
    if n == 0 then s else After32(StepAsWritten(s).next, n - 1)
  }

  /** Below the wrap-around point the counter after `n` calls is `n`. */
  lemma {:induction false} After32Count(n: nat)
    requires n <= IntMax
    ensures After32(Initial32, n).callCount == n
  {
    if n > 0 {
      After32Count(n - 1);
      After32Shift(Initial32, n - 1);
    }
  }

  /** One more call after `n` calls. */
  lemma {:induction false} After32Shift(s: State32, n: nat)
    ensures After32(s, n + 1) == StepAsWritten(After32(s, n)).next
    decreases n
  {
    if n > 0 {
      After32Shift(StepAsWritten(s).next, n - 1);
    }
  }

  /** As long as the counter has not reached `int.MaxValue`, a call behaves as
      in the unbounded model. */
  lemma AgreesBeforeWrap(c: nat)
    requires c < IntMax
    ensures StepAsWritten(State32(c)).next.callCount == Simulator.Step(Simulator.State(c)).next.callCount
    ensures StepAsWritten(State32(c)).status == Simulator.Step(Simulator.State(c)).status
    ensures StepAsWritten(State32(c)).body == Simulator.Step(Simulator.State(c)).body
  {
  }

  /** The call numbered 2^31 fails again, with a negative attempt number,
      although call 2^31 - 1 succeeded and the corrected model answers 200. */
  lemma WrapAroundFailsAgain()
    ensures StepAsWritten(After32(Initial32, IntMax - 1)).status == 200
    ensures After32(Initial32, IntMax).callCount == IntMax
    ensures StepAsWritten(After32(Initial32, IntMax)).status == 500
    ensures StepAsWritten(After32(Initial32, IntMax)).body
         == Simulator.Text(Simulator.FailureText(-2147483648))
    ensures Simulator.Step(Simulator.After(Simulator.Initial, IntMax)).status == 200
  {
    After32Count(IntMax - 1);
    After32Count(IntMax);
    Simulator.CountFromInitial(IntMax);
  }

  /** The answers to the first `n` calls, the last call at the end. */
  function Run32(s: State32, n: nat): (replies: seq<Simulator.Reply>)
    ensures |replies| == n
    decreases n
  {
    if n == 0 then []
    else
      var r := StepAsWritten(After32(s, n - 1));
      Run32(s, n - 1) + [Simulator.Reply(r.status, r.body)]
  }

  lemma {:induction false} FailuresSnoc(replies: seq<Simulator.Reply>, last: Simulator.Reply)
    ensures Simulator.Failures(replies + [last])
         == Simulator.Failures(replies) + (if last.status == Simulator.FailureStatus then 1 else 0)
    decreases |replies|
  {
    if |replies| > 0 {
      assert (replies + [last])[1..] == replies[1..] + [last];
      FailuresSnoc(replies[1..], last);
    }
  }

  /** From a fresh counter, the first `n` calls fail `min(n, 3)` times as long
      as the counter has not wrapped. */
  lemma {:induction false} FailuresBeforeWrap(n: nat)
    requires n <= IntMax
    ensures Simulator.Failures(Run32(Initial32, n)) == Simulator.Min(n, 3)
  {
    if n > 0 {
      FailuresBeforeWrap(n - 1);
      After32Count(n - 1);
      var r := StepAsWritten(After32(Initial32, n - 1));
      FailuresSnoc(Run32(Initial32, n - 1), Simulator.Reply(r.status, r.body));
    }
  }

  /** The first 2^31 calls fail four times, so the as-written counter breaks
      the promise of at most three failures. */
  lemma FourFailuresAfterWrap()
    ensures Simulator.Failures(Run32(Initial32, IntMax + 1)) == 4
  {
    FailuresBeforeWrap(IntMax);
    After32Count(IntMax);
    var r := StepAsWritten(After32(Initial32, IntMax));
    FailuresSnoc(Run32(Initial32, IntMax), Simulator.Reply(r.status, r.body));
  }
}
